=== FILE: README.md ===
# cloud_lite AI cost analyzer, modelled in Dafny

This project models the `ai_analyzer` module of cloud_lite. In cloud_lite,
`aws_monitor.py` fetches and prints daily per-service AWS costs. Separately,
`ai_analyzer` turns a list of cost rows into a report written by a language
model. Nothing in the repository passes one to the other. The model covers the
two parts of `ai_analyzer`:

- **`build_prompt`** assembles the prompt:
  - It orders the cost rows by their `date` key with Python's stable sort. When
    the keys cannot be compared, it keeps the input order instead.
  - It keeps the costs that are present and not None.
  - It computes their count, total, mean and population standard deviation.
    With no cost these are all zero, and with one cost the deviation is 0.
  - It places the rows and the statistics between fixed markers inside a fixed
    Korean instruction text, then strips the result.
- **`analyze_cost_with_gpt`** produces the report:
  - Without an API key it refuses with a fixed message.
  - It sends the prompt, and a failed request gives the error after a fixed
    prefix.
  - Otherwise it extracts the reply text. A flat `output_text` attribute wins
    whenever it exists. Otherwise it walks the `output` list, gathering each
    fragment's truthy `text` or bare string, joins them with newlines and
    strips the result.
  - When that yields nothing, or raises, it uses the printed form of the whole
    response.
  - It wraps the reply text in a fixed header and footer.

Modules:

- `Text` (`text.dfy`): Python's `str.strip()`, `str.join` and the decimal form
  of an `int`.
- `CostRows` (`rows.dfy`): rows, date ordering and cost filtering.
- `SummaryStats` (`stats.dfy`): the statistics.
- `Prompt` (`prompt.dfy`): the prompt text.
- `Extraction` (`extraction.dfy`): the response shapes and the analysis. The
  extraction is a method with the nested loops of the original, proved against
  the function `ResponseText`.
- `SeqFacts` (`seqs.dfy`) and `Wrappers` (`wrappers.dfy`): shared sequence
  lemmas and `Option`.

## Behaviour worth knowing

- **A row with no `date` is not unsortable.** Its key is the empty string, so
  it sorts first (`CostRows.MissingDateFirst`). Only a non-string date, such
  as None, makes the sort fall back to the input order.
- **Sorting does not make the row order independent of input order.** The sort is
  stable, so two different rows that share a date keep their input order.
  Permuting the input can therefore change the order of the rows placed in
  the prompt (`CostRows.PermutationCanChangeOrder`). When every date is a
  string or missing and no two rows share one, every permutation of the rows
  gives the same prompt (`Prompt.PromptIgnoresInputOrder`).
- **An empty or None `output_text` does not fall through to the `output`
  list.** Because the attribute exists, the `output` list is never looked at,
  and the printed response is used (`Extraction.EmptyFlatTextShadowsOutput`).
- **Bare string fragments count as text.** They are gathered alongside the
  dictionary fragments with a `text`. A string `content` is iterated character
  by character (`Extraction.StringContentSplitsCharacters`).

## Model

| member | source | states |
|---|---|---|
| CostRows.LexLeTotal | ai_analyzer.py:32 | Python's string order compares any two date keys |
| CostRows.LexLeTransitive | ai_analyzer.py:32 | Python's string order on date keys is transitive |
| CostRows.LexLeAntisymmetric | ai_analyzer.py:32 | Two date keys each ordered before the other are equal |
| CostRows.Insert | ai_analyzer.py:32 | Inserting a row keeps every key a string, adds one row and adds exactly that row to the multiset of rows |
| CostRows.InsertSorted | ai_analyzer.py:32 | Inserting into a date-sorted list keeps it sorted |
| CostRows.SortByDate | ai_analyzer.py:32 | The sort result is sorted by date and is a permutation of the input |
| CostRows.SortedPairwise | ai_analyzer.py:32 | In a sorted list every earlier row has a key at most that of every later row |
| CostRows.InsertWithKey | ai_analyzer.py:32 | Insertion puts the new row in front of every row with an equal date |
| CostRows.SortByDateStable | ai_analyzer.py:32 | Stability: for every date, the rows carrying it keep their input order |
| CostRows.SortedStableUnique | ai_analyzer.py:32 | Two sorted lists holding the same rows per date, in the same order, are equal |
| CostRows.SortByDateIsStableSort | ai_analyzer.py:32 | Any sorted list that keeps each date's rows in input order is the sort result, so the sort is exactly Python's stable sort |
| CostRows.OrderRows | ai_analyzer.py:31-34 | `rows_sorted` is a permutation of the rows, sorted when every key is a string, and the rows unchanged when a key is not a string |
| CostRows.OrderRowsShort | ai_analyzer.py:31-34 | With at most one row the order is the input order, whichever branch is taken |
| CostRows.MissingDateFirst | ai_analyzer.py:32 | After a successful sort, a row with no date precedes every row with a non-empty date |
| CostRows.SameOrderForDistinctDates | ai_analyzer.py:31-34 | When no two rows share a date, every permutation of the input is ordered identically |
| CostRows.PermutationCanChangeOrder | ai_analyzer.py:31-34 | Two rows with the same date, given in swapped order, come out in swapped order |
| CostRows.WithKeyPermutation | ai_analyzer.py:32 | Permuting the rows permutes the rows of each date |
| CostRows.WithKeyAtMostOne | ai_analyzer.py:32 | With distinct dates, each date is carried by at most one row |
| CostRows.RetainedCosts | ai_analyzer.py:37 | There are never more retained costs than rows |
| CostRows.RetainedCostsExact | ai_analyzer.py:37 | A value is a retained cost if and only if some row carries it as its cost |
| CostRows.RetainedCostsConcat | ai_analyzer.py:37 | The cost filter works row by row: it distributes over concatenation |
| CostRows.MissingCostIgnored | ai_analyzer.py:37 | Inserting a row whose cost is missing or None anywhere leaves the retained costs unchanged |
| CostRows.RetainedCostsPermutation | ai_analyzer.py:37 | Reordering the rows only reorders the retained costs |
| SummaryStats.Summarize | ai_analyzer.py:38-50 | Count is the number of costs. No cost gives all zeros. One cost gives deviation 0. Otherwise total is the sum, mean is total over count, and the squared deviation is the population variance, which is never negative |
| SummaryStats.SquaredDeviationsNonNegative | ai_analyzer.py:46 | The sum of squared deviations is never negative |
| SummaryStats.SumOfZero | ai_analyzer.py:46 | A sum of non-negative terms is zero if and only if every term is zero |
| SummaryStats.ConstantHasNoSpread | ai_analyzer.py:45-48 | Equal costs have no spread, so the single-cost deviation of 0 is also the population value |
| SummaryStats.SumOfPermutation | ai_analyzer.py:42-46 | Sums over the costs do not depend on their order |
| SummaryStats.SummarizeIgnoresOrder | ai_analyzer.py:38-50 | Count, total, mean and deviation do not depend on the order of the costs |
| SummaryStats.SummaryExamples | ai_analyzer.py:38-50 | No cost gives zeros; one cost of 10 gives mean 10 and deviation 0; costs 10 and 20 give total 30, mean 15 and deviation 5 |
| Text.TrimStart | ai_analyzer.py:83 | The result is a suffix that does not start with whitespace, and only whitespace was dropped |
| Text.TrimEnd | ai_analyzer.py:83 | The result is a prefix that does not end with whitespace, and only whitespace was dropped |
| Text.Strip | ai_analyzer.py:83 | `str.strip()`: the result has no whitespace at either end and is a slice of the input with only whitespace cut away on both sides |
| Text.StripPadded | ai_analyzer.py:83 | Stripping whitespace padding around a text that has no whitespace at its ends gives back exactly that text |
| Text.StripKeepsEdgeFree | ai_analyzer.py:135 | Stripping a text with no whitespace at its ends leaves it unchanged |
| Text.StripAllSpace | ai_analyzer.py:135 | Stripping whitespace-only text leaves the empty string |
| Text.JoinAllSpace | ai_analyzer.py:135 | Joining whitespace-only parts with a newline yields whitespace only |
| Text.NatToDecimal | ai_analyzer.py:41 | The count renders as a non-empty string of digits without a leading zero |
| Text.DecimalRoundTrip | ai_analyzer.py:76 | The rendered count reads back as the same number |
| Prompt.BuildPromptStripsTemplate | ai_analyzer.py:52-83 | The prompt is the template stripped, and stripping removes exactly the template's opening and closing newline, whatever the rows and statistics render to |
| Prompt.PromptNoEdgeSpace | ai_analyzer.py:83 | The prompt has no whitespace at either end |
| Prompt.TemplateEdges | ai_analyzer.py:53-81 | The instruction text starts, and the caution text ends, with a visible character |
| Prompt.PromptStatsIgnoreOrder | ai_analyzer.py:37-50 | The statistics in the prompt are those of the present costs in input order, whether or not the sort succeeded |
| Prompt.NoCostNoStats | ai_analyzer.py:49-50 | Rows none of which has a cost give the all-zero statistics |
| Prompt.PromptIgnoresInputOrder | ai_analyzer.py:24-83 | When all dates are strings and pairwise distinct, every permutation of the rows gives the same prompt |
| Extraction.CharFragments | ai_analyzer.py:129 | Iterating a string content yields each character, in order, as a one-character string |
| Extraction.Elements | ai_analyzer.py:128-129 | Iterating a string content yields its characters as one-character strings |
| Extraction.PartStrings | ai_analyzer.py:135 | `join` fails exactly when a collected part is not a string; otherwise it yields the parts' strings, in order |
| Extraction.ResponseText | ai_analyzer.py:117-141 | The reply is the printed response or the non-empty extracted text. A non-empty flat text wins. An empty or None flat text, or an absent or empty `output` list, gives the printed response. The reply is empty only when the printed response is |
| Extraction.ReplyText | ai_analyzer.py:117-141 | The branching extraction with its fallback computes `ResponseText` |
| Extraction.GatherParts | ai_analyzer.py:126-134 | The outer loop over the items raises exactly when some item has no `get` or a non-iterable content, and otherwise collects the parts in order |
| Extraction.GatherFragments | ai_analyzer.py:129-134 | The inner loop keeps, in order, the truthy `text` of dictionary fragments (a non-empty string, or a truthy value that is not a string) and every bare string |
| Extraction.CollectPartsFailureSticks | ai_analyzer.py:127-134 | Once an item raises, the whole walk raises |
| Extraction.ExtractReport | ai_analyzer.py:116-146 | The report is the header, then the reply text, then the footer |
| Extraction.AnalyzeCost | ai_analyzer.py:86-114 | An unset or empty key gives the fixed message; otherwise the result is the prefixed error when the request carrying `build_prompt` of the rows fails, and the framed reply text when it answers |
| Extraction.RequestReport | ai_analyzer.py:106-146 | A failed request gives the fixed prefix followed by the error; a response gives the framed reply text |
| Extraction.UnusableItemFallsBack | ai_analyzer.py:128-141 | An item with no `get`, or whose content cannot be iterated, makes the printed response the reply |
| Extraction.NonStringTextFallsBack | ai_analyzer.py:131-141 | A truthy non-string `text` in any fragment makes `join` raise, so the printed response is the reply even when other fragments hold text |
| Extraction.BlankFragmentsFallBack | ai_analyzer.py:135-139 | Fragments holding only whitespace strip to nothing, so the printed response is the reply |
| Extraction.EmptyFlatTextShadowsOutput | ai_analyzer.py:120-121 | An empty or None `output_text` hides any `output` list, and the printed response is the reply |
| Extraction.SingleItemText | ai_analyzer.py:124-135 | For a single item with string parts, the text is those parts joined with newlines and stripped |
| Extraction.OutputTextIsReply | ai_analyzer.py:122-139 | Without a flat text, non-empty text gathered from the `output` list is the reply |
| Extraction.TwoFragmentsJoined | ai_analyzer.py:127-135 | Two text fragments of one item come back joined by one newline, with only the outer whitespace stripped |
| Extraction.StringContentSplitsCharacters | ai_analyzer.py:128-135 | A string content "ab" comes back as "a", a newline and "b" |

## Left out

- aws_monitor.py and the other repository files are not part of this model.
- The import guard for the `openai` package is not modelled (ai_analyzer.py:17-21).
- Client construction is not modelled, including its `TypeError` retry without a key (ai_analyzer.py:97-103). The request itself is the parameter `call` of `Extraction.AnalyzeCost`: the model name, the token limit and the network are outside the model.
- Reading the environment is not modelled. The key is a parameter, and `None` stands for an unset variable.
- JSON rendering is only partly modelled. The `json.dumps` text of the rows, the `repr` of floats and the float value of the square root are the functions of a `Prompt.Renderer` parameter. The layout of the statistics dictionary is written out: key order, two-space indent and the decimal count.
- Prompt.Renderer: `json.dumps` never fails in the model, so the model always returns a prompt. In the source, a row value that `json.dumps` cannot serialise, such as a `Decimal` cost or a `datetime.date` date, makes it raise a `TypeError` at ai_analyzer.py:72, outside any `try`. `build_prompt` and `analyze_cost_with_gpt` then raise, and that is not modelled.
- SummaryStats.Summarize: costs are exact reals, with no floating-point rounding. The standard deviation is stated through its square (`RootOf`), because Dafny has no square root.
- SummaryStats.Summarize: it does not state the converse of `SummaryStats.ConstantHasNoSpread`, that a zero deviation means all costs are equal.
- CostRows.Row: a row holds a date, a service and a cost only. Source rows with further keys, or without a `service`, are not represented; their JSON text is the caller's `Prompt.Renderer`, which only ever sees the modelled fields.
- CostRows.OrderRows: any non-string date counts as unsortable. Python would also sort rows whose dates are all mutually comparable non-strings: numbers, `datetime.date` objects or tuples. Those cases are not modelled.
- CostRows.RetainedCosts: costs are numbers. `float()` of a numeric string, and the uncaught `ValueError` raised for a non-numeric cost, are not modelled.
- Extraction.ResponseText: a truthy `output_text` that is not a string is not modelled. The source then raises a `TypeError` when it adds the header, outside the extraction's `try`.
- Extraction.ResponseText: the printed response `shown` is taken as given. A `str(response)` that raises is not modelled.
- Extraction.Elements: an item is either a dictionary or a value whose `get` raises. Other objects with a `get` method, and contents that are iterable but neither a list nor a string, are not distinguished.

=== FILE: extraction.dfy ===
/**
 * analyze_cost_with_gpt: the guard on the API key, the call to the model, and
 * the extraction of the reply text from a response whose shape depends on the
 * client library version. A flat `output_text` attribute wins whenever it is
 * present; otherwise the text fragments of the `output` list are collected,
 * joined with newlines and stripped. Whenever that yields nothing, or raises,
 * the printed form of the whole response is used instead. The result is
 * always framed by a fixed header and footer.
 */
module Extraction {
  import opened Wrappers
  import opened Text
  import opened CostRows
  import opened Prompt

  /** The `text` entry of a dictionary fragment, by what the extraction does with it. */
  datatype TextValue =
    | NoText                 // missing, None or another falsy non-string value
    | TextStr(s: string)     // a string, kept only when non-empty
    | TruthyNonString        // a truthy value that is not a string: collected, then `join` raises

  /** One element of an item's `content`. */
  datatype Fragment =
    | DictFragment(text: TextValue)
    | StrFragment(s: string)
    | OtherFragment          // neither a dictionary nor a string: ignored

  /** An item's `content`, by how iterating over it behaves. */
  datatype Content =
    | Fragments(elems: seq<Fragment>)  // a list (a missing key gives the empty list)
    | StrContent(s: string)            // a string iterates over its characters
    | NotIterable                      // None or a number: iterating raises

  /** An element of the `output` list: a dictionary, or a value without `get`, which raises. */
  datatype Item = DictItem(content: Content) | NonDictItem

  /** The `output_text` attribute. */
  datatype FlatText =
    | NoFlatText             // the attribute is absent
    | FlatFalsy              // present but None or another falsy non-string value
    | FlatStr(s: string)     // present and a string

  /** The `output` attribute: a list of items, or anything else (absent, None, not a list). */
  datatype OutputField = NoOutputList | OutputList(items: seq<Item>)

  /** A model response; `shown` is its printed form, `str(response)`. */
  datatype Response = Response(flat: FlatText, output: OutputField, shown: string)

  /** A value appended to the collected parts. */
  datatype Part = StrPart(s: string) | NonStrPart

  /** What the extraction of the reply text ends with, before the fallback. */
  datatype Extracted = Found(text: string) | NotFound | Raised

  /** The outcome of the request to the model: the error's message or the response. */
  datatype CallOutcome = CallFailed(error: string) | Replied(response: Response)

  const Header: string := "=== GPT 기반 비용 분석 리포트 ===\n"
  const Footer: string := "\n=== 리포트 끝 ==="
  const MissingKeyMessage: string :=
    "[AI 분석 실패] OPENAI_API_KEY 환경변수가 설정되어 있지 않습니다. " + "환경변수를 설정한 뒤 다시 시도하세요."
  const CallFailurePrefix: string := "[AI 분석 실패] OpenAI API 호출 중 오류가 발생했습니다: "

  /** The elements iterating over a content yields, or None when iterating raises. */
  function Elements(c: Content): (r: Option<seq<Fragment>>)
    ensures c.StrContent? ==>
      (r.Some? && |r.value| == |c.s| && forall i :: 0 <= i < |c.s| ==> r.value[i] == StrFragment([c.s[i]]))
  {
    match c
    case Fragments(elems) => Some(elems)
    case StrContent(s) => Some(CharFragments(s))
    case NotIterable => None
  }

  /** Each character of a string as a one-character string fragment. */
  function CharFragments(s: string): (r: seq<Fragment>)
    ensures |r| == |s| && forall i :: 0 <= i < |s| ==> r[i] == StrFragment([s[i]])
  {
    if s == [] then [] else [StrFragment([s[0]])] + CharFragments(s[1..])
  }

  /** The parts one fragment contributes: a non-empty string text or a truthy non-string text, or a bare string. */
  function FragmentParts(f: Fragment): seq<Part> {
    match f
    case DictFragment(TextStr(s)) => if s != [] then [StrPart(s)] else []
    case DictFragment(TruthyNonString) => [NonStrPart]
    case DictFragment(NoText) => []
    case StrFragment(s) => [StrPart(s)]
    case OtherFragment => []
  }

  /** The parts a sequence of fragments contributes, in order. */
  function ElementsParts(elems: seq<Fragment>): seq<Part> {
    if elems == [] then [] else ElementsParts(elems[..|elems| - 1]) + FragmentParts(elems[|elems| - 1])
  }

  /** The parts collected from the items in order, or None when an item raises. */
  function CollectParts(items: seq<Item>): Option<seq<Part>> {
    if items == [] then Some([])
    else
      match CollectParts(items[..|items| - 1])
      case None => None
      case Some(parts) =>
        match items[|items| - 1]
        case NonDictItem => None
        case DictItem(content) =>
          match Elements(content)
          case None => None
          case Some(elems) => Some(parts + ElementsParts(elems))
  }

  /** The strings of the parts, or None when one is not a string (on which `join` raises). */
  function PartStrings(parts: seq<Part>): (r: Option<seq<string>>)
    ensures r.None? <==> NonStrPart in parts
    ensures r.Some? ==> |r.value| == |parts| && forall i :: 0 <= i < |parts| ==> parts[i] == StrPart(r.value[i])
  {
    if parts == [] then Some([])
    else
      match parts[0]
      case NonStrPart => None
      case StrPart(s) =>
        match PartStrings(parts[1..])
        case None => None
        case Some(rest) => Some([s] + rest)
  }

  /** The text gathered from a non-empty `output` list: the parts joined with newlines, stripped. */
  function OutputText(items: seq<Item>): Extracted {
    match CollectParts(items)
    case None => Raised
    case Some(parts) =>
      if parts == [] then NotFound
      else
        match PartStrings(parts)
        case None => Raised
        case Some(strs) => Found(Strip(Join(strs, "\n")))
  }

  /** The reply text before the fallback: the flat attribute if present, else the `output` list. */
  function Candidate(resp: Response): Extracted {
    match resp.flat
    case FlatStr(s) => Found(s)
    case FlatFalsy => NotFound
    case NoFlatText =>
      match resp.output
      case NoOutputList => NotFound
      case OutputList(items) => if items == [] then NotFound else OutputText(items)
  }

  /**
   * The reply text of the report: the candidate when it is a non-empty
   * string, otherwise the printed response.
   */
  function ResponseText(resp: Response): (t: string)
    ensures t == resp.shown || (Candidate(resp) == Found(t) && t != [])
    ensures resp.flat.FlatStr? && resp.flat.s != [] ==> t == resp.flat.s
    ensures resp.flat.FlatFalsy? || resp.flat == FlatStr([]) ==> t == resp.shown
    ensures resp.flat.NoFlatText? && (resp.output.NoOutputList? || resp.output.items == []) ==> t == resp.shown
    ensures t == [] ==> resp.shown == []
  {
    match Candidate(resp)
    case Found(s) => if s != [] then s else resp.shown
    case _ => resp.shown
  }

  /** The framed report for a response: the flat text if present, else the text of the `output` list, falling back to the printed response. */
  method ExtractReport(resp: Response) returns (report: string)
    ensures report == Header + ResponseText(resp) + Footer
  {
    var text := ReplyText(resp);
    report := Header + text + Footer;
  }

  /** The reply text, following the branches of the extraction and its fallback. */
  method ReplyText(resp: Response) returns (text: string)
    ensures text == ResponseText(resp)
  {
    var aiText: Option<string> := None;
    var raised := false;
    if !resp.flat.NoFlatText? {
      if resp.flat.FlatStr? {
        aiText := Some(resp.flat.s);
      }
    } else if resp.output.OutputList? && resp.output.items != [] {
      var parts;
      parts, raised := GatherParts(resp.output.items);
      if !raised && parts != [] {
        match PartStrings(parts) {
          case None =>
            raised := true;
          case Some(strs) =>
            aiText := Some(Strip(Join(strs, "\n")));
        }
      }
    }
    assert Candidate(resp) == (if raised then Raised else if aiText == None then NotFound else Found(aiText.value));
    if raised || aiText == None || aiText.value == [] {
      text := resp.shown;
    } else {
      text := aiText.value;
    }
  }

  /** Walks the items in order, collecting their parts; stops at the first item that raises. */
  method GatherParts(items: seq<Item>) returns (parts: seq<Part>, raised: bool)
    ensures raised <==> CollectParts(items).None?
    ensures !raised ==> CollectParts(items) == Some(parts)
  {
    parts := [];
    raised := false;
    var i := 0;
    while i < |items| && !raised
      invariant 0 <= i <= |items|
      invariant !raised ==> CollectParts(items[..i]) == Some(parts)
      invariant raised ==> CollectParts(items) == None
    {
      assert items[..i + 1][..i] == items[..i];
      match items[i] {
        case NonDictItem =>
          raised := true;
        case DictItem(content) =>
          match Elements(content) {
            case None =>
              raised := true;
            case Some(elems) =>
              var found := GatherFragments(elems);
              parts := parts + found;
          }
      }
      if raised {
        CollectPartsFailureSticks(items, i + 1);
      }
      i := i + 1;
    }
    if !raised {
      assert items[..i] == items;
    }
  }

  /** Walks the elements of one content, keeping the non-empty texts and the bare strings. */
  method GatherFragments(elems: seq<Fragment>) returns (found: seq<Part>)
    ensures found == ElementsParts(elems)
  {
    found := [];
    var j := 0;
    while j < |elems|
      invariant 0 <= j <= |elems|
      invariant found == ElementsParts(elems[..j])
    {
      assert elems[..j + 1][..j] == elems[..j];
      match elems[j] {
        case DictFragment(TextStr(s)) =>
          if s != [] {
            found := found + [StrPart(s)];
          }
        case DictFragment(TruthyNonString) =>
          found := found + [NonStrPart];
        case DictFragment(NoText) =>
        case StrFragment(s) =>
          found := found + [StrPart(s)];
        case OtherFragment =>
      }
      j := j + 1;
    }
    assert elems[..j] == elems;
  }

  /** Once an item raises, every longer list of items raises too. */
  lemma {:induction false} CollectPartsFailureSticks(items: seq<Item>, n: nat)
    requires n <= |items| && CollectParts(items[..n]) == None
    ensures CollectParts(items) == None
    decreases |items| - n
  {
    if n == |items| {
      assert items[..n] == items;
    } else {
      var init := items[..|items| - 1];
      assert init[..n] == items[..n];
      CollectPartsFailureSticks(init, n);
    }
  }

  /**
   * analyze_cost_with_gpt: no key (unset or empty) gives the fixed message;
   * otherwise the prompt for the rows is sent. `call` stands for the request
   * to the model.
   */
  method AnalyzeCost(apiKey: Option<string>, rows: seq<Row>, render: Renderer, call: string -> CallOutcome)
    returns (result: string)
    ensures apiKey == None || apiKey == Some([]) ==> result == MissingKeyMessage
    ensures apiKey != None && apiKey != Some([]) && call(BuildPrompt(rows, render)).CallFailed? ==>
      result == CallFailurePrefix + call(BuildPrompt(rows, render)).error
    ensures apiKey != None && apiKey != Some([]) && call(BuildPrompt(rows, render)).Replied? ==>
      result == Header + ResponseText(call(BuildPrompt(rows, render)).response) + Footer
  {
    if apiKey == None || apiKey.value == [] {
      return MissingKeyMessage;
    }
    var prompt := BuildPrompt(rows, render);
    result := RequestReport(prompt, call);
  }

  /**
   * Sends the prompt: a failed request gives its error after a fixed prefix,
   * a response gives the framed reply text.
   */
  method RequestReport(prompt: string, call: string -> CallOutcome) returns (result: string)
    ensures call(prompt).CallFailed? ==> result == CallFailurePrefix + call(prompt).error
    ensures call(prompt).Replied? ==> result == Header + ResponseText(call(prompt).response) + Footer
  {
    match call(prompt) {
      case CallFailed(e) =>
        result := CallFailurePrefix + e;
      case Replied(resp) =>
        result := ExtractReport(resp);
    }
  }

  /** An item that is not a dictionary, or whose content cannot be iterated, makes the printed response the reply. */
  lemma UnusableItemFallsBack(resp: Response, k: nat)
    requires resp.flat.NoFlatText? && resp.output.OutputList?
    requires k < |resp.output.items|
    requires resp.output.items[k].NonDictItem? || Elements(resp.output.items[k].content).None?
    ensures ResponseText(resp) == resp.shown
  {
    var items := resp.output.items;
    assert items[..k + 1][..k] == items[..k];
    CollectPartsFailureSticks(items, k + 1);
  }

  /** The parts a fragment contributes are among the parts of any sequence holding it. */
  lemma {:induction false} ElementsPartsHas(elems: seq<Fragment>, j: nat, p: Part)
    requires j < |elems| && p in FragmentParts(elems[j])
    ensures p in ElementsParts(elems)
  {
    var init := elems[..|elems| - 1];
    if j < |elems| - 1 {
      assert init[j] == elems[j];
      ElementsPartsHas(init, j, p);
    }
  }

  /** The parts a fragment of item `k` contributes are among the collected parts. */
  lemma {:induction false} CollectPartsHas(items: seq<Item>, k: nat, j: nat, p: Part)
    requires CollectParts(items).Some? && k < |items| && items[k].DictItem?
    requires Elements(items[k].content).Some?
    requires j < |Elements(items[k].content).value|
    requires p in FragmentParts(Elements(items[k].content).value[j])
    ensures p in CollectParts(items).value
  {
    var init := items[..|items| - 1];
    if k < |items| - 1 {
      assert init[k] == items[k];
      CollectPartsHas(init, k, j, p);
    } else {
      ElementsPartsHas(Elements(items[k].content).value, j, p);
    }
  }

  /**
   * A truthy non-string `text` in any fragment makes `join` raise, so the
   * printed response becomes the reply, even when other fragments hold text.
   */
  lemma NonStringTextFallsBack(resp: Response, k: nat, j: nat)
    requires resp.flat.NoFlatText? && resp.output.OutputList?
    requires k < |resp.output.items| && resp.output.items[k].DictItem?
    requires Elements(resp.output.items[k].content).Some?
    requires j < |Elements(resp.output.items[k].content).value|
    requires Elements(resp.output.items[k].content).value[j] == DictFragment(TruthyNonString)
    ensures ResponseText(resp) == resp.shown
  {
    var items := resp.output.items;
    match CollectParts(items)
    case None =>
    case Some(parts) =>
      CollectPartsHas(items, k, j, NonStrPart);
  }

  /** Fragments holding only whitespace strip to nothing, so the printed response becomes the reply. */
  lemma BlankFragmentsFallBack(resp: Response)
    requires resp.flat.NoFlatText? && resp.output.OutputList?
    requires CollectParts(resp.output.items).Some?
    requires forall p :: p in CollectParts(resp.output.items).value ==> p.StrPart? && AllSpace(p.s)
    ensures ResponseText(resp) == resp.shown
  {
    var parts := CollectParts(resp.output.items).value;
    if parts != [] {
      assert NonStrPart !in parts;
      var strs := PartStrings(parts).value;
      forall i | 0 <= i < |strs| ensures AllSpace(strs[i]) {
        assert parts[i] in parts;
      }
      assert AllSpace("\n");
      JoinAllSpace(strs, "\n");
      StripAllSpace(Join(strs, "\n"));
    }
  }

  /** A present `output_text` that is empty or None wins over a non-empty `output` list and falls back. */
  lemma EmptyFlatTextShadowsOutput(shown: string, items: seq<Item>)
    ensures ResponseText(Response(FlatStr([]), OutputList(items), shown)) == shown
    ensures ResponseText(Response(FlatFalsy, OutputList(items), shown)) == shown
  {
  }

  /** A one-item output whose content yields at least one string part gives those strings joined and stripped. */
  lemma SingleItemText(c: Content, strs: seq<string>)
    requires Elements(c).Some?
    requires PartStrings(ElementsParts(Elements(c).value)) == Some(strs) && strs != []
    ensures OutputText([DictItem(c)]) == Found(Strip(Join(strs, "\n")))
  {
    var items := [DictItem(c)];
    var parts := ElementsParts(Elements(c).value);
    assert items[..0] == [];
    assert [] + parts == parts;
    assert CollectParts(items) == Some(parts);
  }

  /** Without a flat text, a non-empty text gathered from the `output` list is the reply. */
  lemma OutputTextIsReply(resp: Response, t: string)
    requires resp.flat.NoFlatText? && resp.output.OutputList? && resp.output.items != []
    requires OutputText(resp.output.items) == Found(t) && t != []
    ensures ResponseText(resp) == t
  {
  }

  lemma TwoElementsParts(f: Fragment, g: Fragment)
    ensures ElementsParts([f, g]) == FragmentParts(f) + FragmentParts(g)
  {
    var elems := [f, g];
    assert elems[..1] == [f] && [f][..0] == [];
    assert ElementsParts([f]) == FragmentParts(f);
  }

  /** Two string parts are joined by a single newline. */
  lemma TwoStringsJoined(a: string, b: string)
    ensures PartStrings([StrPart(a), StrPart(b)]) == Some([a, b])
    ensures Join([a, b], "\n") == a + "\n" + b
  {
    assert [StrPart(a), StrPart(b)][1..] == [StrPart(b)] && [StrPart(b)][1..] == [];
    assert PartStrings([]) == Some([]) && [b] + [] == [b];
    assert PartStrings([StrPart(b)]) == Some([b]);
    assert [a] + [b] == [a, b];
    assert [a, b][1..] == [b];
  }

  /** Two text fragments of one item are joined by a newline, and only the outer whitespace is stripped. */
  lemma TwoFragmentsJoined(a: string, b: string, shown: string)
    requires a != [] && !IsSpace(a[0])
    requires b != [] && !IsSpace(b[|b| - 1])
    ensures ResponseText(Response(NoFlatText,
      OutputList([DictItem(Fragments([DictFragment(TextStr(a)), DictFragment(TextStr(b))]))]), shown))
      == a + "\n" + b
  {
    var f, g := DictFragment(TextStr(a)), DictFragment(TextStr(b));
    TwoElementsParts(f, g);
    assert [StrPart(a)] + [StrPart(b)] == [StrPart(a), StrPart(b)];
    TwoPartsText(Fragments([f, g]), a, b, shown);
  }

  /** A single item whose content yields exactly two string parts gives them joined by a newline. */
  lemma TwoPartsText(c: Content, a: string, b: string, shown: string)
    requires a != [] && !IsSpace(a[0])
    requires b != [] && !IsSpace(b[|b| - 1])
    requires Elements(c).Some? && ElementsParts(Elements(c).value) == [StrPart(a), StrPart(b)]
    ensures ResponseText(Response(NoFlatText, OutputList([DictItem(c)]), shown)) == a + "\n" + b
  {
    TwoPartsOutput(c, a, b);
    OutputTextIsReply(Response(NoFlatText, OutputList([DictItem(c)]), shown), a + "\n" + b);
  }

  lemma TwoPartsOutput(c: Content, a: string, b: string)
    requires a != [] && !IsSpace(a[0])
    requires b != [] && !IsSpace(b[|b| - 1])
    requires Elements(c).Some? && ElementsParts(Elements(c).value) == [StrPart(a), StrPart(b)]
    ensures OutputText([DictItem(c)]) == Found(a + "\n" + b) && a + "\n" + b != []
  {
    TwoStringsJoined(a, b);
    SingleItemText(c, [a, b]);
    JoinedLinesKept(a, b);
  }

  /** Two lines joined by a newline lose nothing to stripping when neither outer end is whitespace. */
  lemma JoinedLinesKept(a: string, b: string)
    requires a != [] && !IsSpace(a[0])
    requires b != [] && !IsSpace(b[|b| - 1])
    ensures Strip(Join([a, b], "\n")) == a + "\n" + b != []
  {
    TwoStringsJoined(a, b);
    var x := a + "\n" + b;
    assert x[0] == a[0] && x[|x| - 1] == b[|b| - 1];
    StripKeepsEdgeFree(x);
  }

  /** A string content is iterated character by character, so its characters come back on separate lines. */
  lemma StringContentSplitsCharacters(shown: string)
    ensures ResponseText(Response(NoFlatText, OutputList([DictItem(StrContent("ab"))]), shown)) == "a\nb"
  {
    StringContentParts();
    assert !IsSpace("a"[0]) && !IsSpace("b"[0]);
    TwoPartsText(StrContent("ab"), "a", "b", shown);
    assert "a" + "\n" + "b" == "a\nb";
  }

  lemma StringContentParts()
    ensures Elements(StrContent("ab")).Some?
    ensures ElementsParts(Elements(StrContent("ab")).value) == [StrPart("a"), StrPart("b")]
  {
    var f, g := StrFragment("a"), StrFragment("b");
    var e := Elements(StrContent("ab")).value;
    assert e[0] == StrFragment(["ab"[0]]) == f;
    assert e[1] == StrFragment(["ab"[1]]) == g;
    assert e == [f, g];
    TwoElementsParts(f, g);
    assert [StrPart("a")] + [StrPart("b")] == [StrPart("a"), StrPart("b")];
  }
}

=== FILE: prompt.dfy ===
/**
 * build_prompt: the analysis request sent to the language model. The rows are
 * put in date order (or kept as given when the dates cannot be compared), the
 * summary statistics are computed over the retained costs, and both are
 * embedded, as JSON, between fixed markers in a fixed Korean template, which
 * is finally stripped of surrounding whitespace.
 */
module Prompt {
  import opened Text
  import opened CostRows
  import opened SummaryStats
  import opened SeqFacts

  /**
   * How values are rendered as JSON. Python's `json.dumps` of the row
   * dictionaries (their date, service and cost, non-ASCII kept, indent 2), the shortest
   * round-trip text of a float, and the float text of a square root are not
   * part of this model; they are supplied by the caller.
   */
  datatype Renderer = Renderer(rowsJson: seq<Row> -> string, floatJson: real -> string, rootJson: Root -> string)

  /** The template text above the data: the role, the four required sections and the suggested format. */
  const Instructions: string := "당신은 AWS 비용 분석 전문가입니다. " + InstructionsRest

  const InstructionsRest: string :=
    "아래는 AWS 서비스별/일자별 비용 데이터입니다.\n"
    + "목표: 한국어로 이해하기 쉬운 비용 분석 리포트를 만드세요. 포맷은 자유지만 아래 항목을 반드시 포함하세요:\n"
    + "  1) 이상 비용(Anomaly) 감지: 어떤 서비스/일자에서 평소보다 급증 또는 급감했는지 식별하고, 근거(숫자 비교: 전일 대비, 평균 대비 등)를 함께 표기하세요.\n"
    + "  2) 전체 추세 요약: 최근 기간의 총 비용 추세(증가/감소/안정)와 주요 원인으로 추정되는 서비스들을 요약하세요.\n"
    + "  3) 추가 확인 항목 제안: 운영팀이 확인해야 할 구체적인 액션 아이템(예: 특정 로그/리소스 확인, 예약 인스턴스/스팟 사용 확인, S3 데이터 전송량 점검 등).\n"
    + "  4) (선택) 비용 절감 아이디어가 있으면 간략히 제안하세요.\n"
    + "\n"
    + "입력 데이터(정렬된 JSON)와 간단 통계는 아래에 포함됩니다. 숫자는 한국어로 설명하되, 중요한 수치는 괄호안에 원본 숫자를 포함하세요.\n"
    + "\n"
    + "간단한 포맷 제안(권장):\n"
    + "- 요약(1-2문장)\n"
    + "- 주요 이상치(항목별, 한두문장 + 수치)\n"
    + "- 추세 및 원인(한두문단)\n"
    + "- 권장 확인 항목(번호 목록)\n"
    + "- 비용 절감 아이디어(선택)\n"
    + "\n"
    + "아래는 데이터와 간단 통계입니다."

  /** The template text below the data: answer from the data only, in Korean. */
  const Cautions: string :=
    CautionsOpening + "- 결과는 한국어로 출력하세요."

  const CautionsOpening: string :=
    "주의:\n"
    + "- 분석은 주어진 데이터만 기반하여 추정으로 제시하세요. (확인 필요 시 '추정'이라고 표기)\n"

  const RowsStart: string := "=== COST_ROWS_JSON START ==="
  const RowsEnd: string := "=== COST_ROWS_JSON END ==="
  const StatsStart: string := "=== SUMMARY_STATS START ==="
  const StatsEnd: string := "=== SUMMARY_STATS END ==="

  /** `json.dumps(summary_stats, indent=2)`: one key per line, in insertion order. */
  function StatsJson(st: Stats, render: Renderer): string {
    "{\n  \"count\": " + NatToDecimal(st.count)
    + ",\n  \"total\": " + render.floatJson(st.total)
    + ",\n  \"mean\": " + render.floatJson(st.mean)
    + ",\n  \"stdev\": " + render.rootJson(st.stdev)
    + "\n}"
  }

  /** The summary statistics the prompt carries: those of the costs retained from the ordered rows. */
  function PromptStats(rows: seq<Row>): Stats {
    Summarize(RetainedCosts(OrderRows(rows)))
  }

  /** The data part of the template: the ordered rows and the statistics, each between its markers. */
  function Sections(rows: seq<Row>, render: Renderer): string {
    "\n\n" + RowsStart + "\n" + render.rowsJson(OrderRows(rows)) + "\n" + RowsEnd
    + "\n\n" + StatsStart + "\n" + StatsJson(PromptStats(rows), render) + "\n" + StatsEnd + "\n\n"
  }

  /** The prompt template as written: it opens and closes with a newline. */
  function Template(rows: seq<Row>, render: Renderer): string {
    "\n" + Instructions + Sections(rows, render) + Cautions + "\n"
  }

  /**
   * build_prompt: the instructions, the ordered rows and the statistics
   * between their markers, and the cautions. BuildPromptStripsTemplate shows
   * this is the template with surrounding whitespace stripped.
   */
  function BuildPrompt(rows: seq<Row>, render: Renderer): string {
    Instructions + Sections(rows, render) + Cautions
  }

  /**
   * Stripping the template removes exactly its opening and closing newline;
   * the rows and statistics between them are left as they are.
   */
  lemma BuildPromptStripsTemplate(rows: seq<Row>, render: Renderer)
    ensures BuildPrompt(rows, render) == Strip(Template(rows, render))
  {
    TemplateEdges();
    StripFrame(Instructions, Sections(rows, render), Cautions);
  }

  /** A text that starts and ends with a visible character survives stripping of a surrounding newline pair. */
  lemma StripFrame(head: string, mid: string, tail: string)
    requires head != [] && !IsSpace(head[0])
    requires tail != [] && !IsSpace(tail[|tail| - 1])
    ensures Strip("\n" + head + mid + tail + "\n") == head + mid + tail
  {
    var x := head + mid + tail;
    assert x[0] == head[0];
    assert x[|x| - 1] == tail[|tail| - 1];
    assert NoEdgeSpace(x);
    StripPadded("\n", x, "\n");
    Regroup("\n", head, mid, tail, "\n");
  }

  /** The prompt carries no whitespace at either end. */
  lemma PromptNoEdgeSpace(rows: seq<Row>, render: Renderer)
    ensures NoEdgeSpace(BuildPrompt(rows, render))
  {
    BuildPromptStripsTemplate(rows, render);
  }

  /** The template text begins and ends with a visible character. */
  lemma TemplateEdges()
    ensures Instructions != [] && !IsSpace(Instructions[0])
    ensures Cautions != [] && !IsSpace(Cautions[|Cautions| - 1])
  {
  }

  /**
   * Ordering the rows first does not change the statistics: they are those of
   * every present cost of the rows in their original order.
   */
  lemma PromptStatsIgnoreOrder(rows: seq<Row>)
    ensures PromptStats(rows) == Summarize(RetainedCosts(rows))
  {
    RetainedCostsPermutation(OrderRows(rows), rows);
    SummarizeIgnoresOrder(RetainedCosts(OrderRows(rows)), RetainedCosts(rows));
  }

  /** Rows none of which has a cost give the all-zero statistics. */
  lemma NoCostNoStats(rows: seq<Row>)
    requires forall i :: 0 <= i < |rows| ==> !rows[i].cost.Cost?
    ensures PromptStats(rows) == Stats(0, 0.0, 0.0, RootOf(0.0))
  {
    PromptStatsIgnoreOrder(rows);
    var costs := RetainedCosts(rows);
    if costs != [] {
      RetainedCostsExact(rows, costs[0]);
      assert false;
    }
  }

  /**
   * When every row has a string date (or none) and no two rows share a sort
   * key, reordering the input does not change the prompt.
   */
  lemma PromptIgnoresInputOrder(a: seq<Row>, b: seq<Row>, render: Renderer)
    requires KeysComparable(a) && multiset(a) == multiset(b)
    requires DistinctKeys(a)
    ensures BuildPrompt(a, render) == BuildPrompt(b, render)
  {
    SameOrderForDistinctDates(a, b);
  }
}

=== FILE: rows.dfy ===
/**
 * The cost rows handed to the report: their date ordering (a stable sort on the
 * `date` key, or the input order when the keys cannot be compared) and the costs
 * that enter the summary statistics.
 */
module CostRows {
  import opened SeqFacts

  /** The `date` entry of a row: missing, a string, or any other value (None, a number, ...). */
  datatype DateField = NoDate | DateText(text: string) | DateOther(shown: string)

  /** The `cost` entry of a row: missing, explicitly None, or a number. */
  datatype CostField = NoCost | NullCost | Cost(amount: real)

  /** One row of the cost report, e.g. {"date": "2025-12-10", "service": "AmazonEC2", "cost": 12.34}. */
  datatype Row = Row(date: DateField, service: string, cost: CostField)

  /** Whether the row's sort key `r.get("date", "")` is a string. */
  predicate HasTextKey(r: Row) {
    !r.date.DateOther?
  }

  /** The sort key `r.get("date", "")`: a missing date sorts as the empty string. */
  function SortKey(r: Row): string
    requires HasTextKey(r)
  {
    match r.date
    case NoDate => ""
    case DateText(t) => t
  }

  /** Every sort key is a string, so Python's `sorted` can compare any two of them. */
  predicate KeysComparable(rows: seq<Row>) {
    forall i :: 0 <= i < |rows| ==> HasTextKey(rows[i])
  }

  /** Python's `<=` on strings: lexicographic by code point, a prefix coming first. */
  predicate LexLe(a: string, b: string) {
    a == [] || (b != [] && (a[0] < b[0] || (a[0] == b[0] && LexLe(a[1..], b[1..]))))
  }

  lemma LexLeReflexive(a: string)
    ensures LexLe(a, a)
  {
  }

  lemma {:induction false} LexLeTotal(a: string, b: string)
    ensures LexLe(a, b) || LexLe(b, a)
  {
    if a != [] && b != [] && a[0] == b[0] {
      LexLeTotal(a[1..], b[1..]);
    }
  }

  lemma {:induction false} LexLeAntisymmetric(a: string, b: string)
    requires LexLe(a, b) && LexLe(b, a)
    ensures a == b
  {
    if a != [] {
      LexLeAntisymmetric(a[1..], b[1..]);
      assert a == [a[0]] + a[1..] && b == [b[0]] + b[1..];
    }
  }

  lemma {:induction false} LexLeTransitive(a: string, b: string, c: string)
    requires LexLe(a, b) && LexLe(b, c)
    ensures LexLe(a, c)
  {
    if a != [] && a[0] == b[0] && b[0] == c[0] {
      LexLeTransitive(a[1..], b[1..], c[1..]);
    }
  }

  /** Neighbouring rows are in non-decreasing key order. */
  predicate Sorted(rows: seq<Row>)
    requires KeysComparable(rows)
  {
    forall i :: 0 < i < |rows| ==> LexLe(SortKey(rows[i - 1]), SortKey(rows[i]))
  }

  /** Any two rows, not only neighbours, are in key order. */
  lemma {:induction false} SortedPairwise(rows: seq<Row>)
    requires KeysComparable(rows) && Sorted(rows)
    ensures forall i, j :: 0 <= i < j < |rows| ==> LexLe(SortKey(rows[i]), SortKey(rows[j]))
  {
    if |rows| > 1 {
      var tail := rows[1..];
      assert Sorted(tail) by {
        forall i | 0 < i < |tail| ensures LexLe(SortKey(tail[i - 1]), SortKey(tail[i])) {
          assert tail[i - 1] == rows[i] && tail[i] == rows[i + 1];
        }
      }
      SortedPairwise(tail);
      forall i, j | 0 <= i < j < |rows| ensures LexLe(SortKey(rows[i]), SortKey(rows[j])) {
        if i == 0 && j > 1 {
          assert rows[j] == tail[j - 1] && rows[1] == tail[0];
          LexLeTransitive(SortKey(rows[0]), SortKey(rows[1]), SortKey(rows[j]));
        } else if i > 0 {
          assert rows[i] == tail[i - 1] && rows[j] == tail[j - 1];
        }
      }
    }
  }

  /** Dropping the first row keeps a row list sorted. */
  lemma SortedTail(rows: seq<Row>)
    requires KeysComparable(rows) && Sorted(rows) && rows != []
    ensures KeysComparable(rows[1..]) && Sorted(rows[1..])
  {
    var tail := rows[1..];
    forall i | 0 < i < |tail| ensures LexLe(SortKey(tail[i - 1]), SortKey(tail[i])) {
      assert tail[i - 1] == rows[i] && tail[i] == rows[i + 1];
    }
  }

  /**
   * Inserts `x` into the sorted `s` in front of the first row whose key is not
   * smaller: `x` comes from earlier in the input than every row of `s`, so it
   * goes before the rows with an equal key.
   */
  function Insert(x: Row, s: seq<Row>): (r: seq<Row>)
    requires HasTextKey(x) && KeysComparable(s)
    ensures KeysComparable(r) && |r| == |s| + 1
    ensures multiset(r) == multiset(s) + multiset{x}
    ensures r[0] == x || (s != [] && r[0] == s[0])
  {
    if s == [] || LexLe(SortKey(x), SortKey(s[0])) then
      [x] + s
    else
      assert s == [s[0]] + s[1..];
      [s[0]] + Insert(x, s[1..])
  }

  lemma {:induction false} InsertSorted(x: Row, s: seq<Row>)
    requires HasTextKey(x) && KeysComparable(s) && Sorted(s)
    ensures Sorted(Insert(x, s))
  {
    var r := Insert(x, s);
    if s != [] && !LexLe(SortKey(x), SortKey(s[0])) {
      SortedTail(s);
      InsertSorted(x, s[1..]);
      var rest := Insert(x, s[1..]);
      assert r == [s[0]] + rest;
      LexLeTotal(SortKey(x), SortKey(s[0]));
      assert LexLe(SortKey(s[0]), SortKey(rest[0])) by {
        if rest[0] != x {
          assert rest[0] == s[1];
        }
      }
      forall i | 0 < i < |r| ensures LexLe(SortKey(r[i - 1]), SortKey(r[i])) {
        if i > 1 {
          assert r[i - 1] == rest[i - 2] && r[i] == rest[i - 1];
        }
      }
    } else {
      forall i | 0 < i < |r| ensures LexLe(SortKey(r[i - 1]), SortKey(r[i])) {
        if i > 1 {
          assert r[i - 1] == s[i - 2] && r[i] == s[i - 1];
        }
      }
    }
  }

  /** Python's stable `sorted(rows, key=lambda r: r.get("date", ""))`, as an insertion sort. */
  function SortByDate(rows: seq<Row>): (r: seq<Row>)
    requires KeysComparable(rows)
    ensures KeysComparable(r) && Sorted(r)
    ensures multiset(r) == multiset(rows) && |r| == |rows|
  {
    if rows == [] then []
    else
      assert rows == [rows[0]] + rows[1..];
      var rest := SortByDate(rows[1..]);
      InsertSorted(rows[0], rest);
      Insert(rows[0], rest)
  }

  /** Whether the row's sort key is the string `k`. */
  predicate KeyIs(r: Row, k: string) {
    HasTextKey(r) && SortKey(r) == k
  }

  /** The rows with key `k`, in their order. */
  function WithKey(rows: seq<Row>, k: string): seq<Row>
  {
    if rows == [] then []
    else (if KeyIs(rows[0], k) then [rows[0]] else []) + WithKey(rows[1..], k)
  }

  lemma {:induction false} InsertWithKey(x: Row, s: seq<Row>, k: string)
    requires HasTextKey(x) && KeysComparable(s)
    ensures WithKey(Insert(x, s), k) == (if SortKey(x) == k then [x] else []) + WithKey(s, k)
  {
    if s == [] || LexLe(SortKey(x), SortKey(s[0])) {
      assert Insert(x, s) == [x] + s;
      WithKeyCons(x, s, k);
    } else {
      var h, t := s[0], s[1..];
      assert s == [h] + t;
      assert KeysComparable(t);
      var rest := Insert(x, t);
      assert Insert(x, s) == [h] + rest;
      InsertWithKey(x, t, k);
      WithKeyCons(h, rest, k);
      WithKeyCons(h, t, k);
      var hx := if SortKey(x) == k then [x] else [];
      if KeyIs(h, k) {
        LexLeReflexive(SortKey(x));
        assert hx == [];
        calc {
          WithKey(Insert(x, s), k);
          [h] + WithKey(rest, k);
          [h] + ([] + WithKey(t, k));
          { assert [] + WithKey(t, k) == WithKey(t, k); }
          WithKey(s, k);
          { assert [] + WithKey(s, k) == WithKey(s, k); }
          hx + WithKey(s, k);
        }
      } else {
        calc {
          WithKey(Insert(x, s), k);
          [] + WithKey(rest, k);
          { assert [] + WithKey(rest, k) == WithKey(rest, k); }
          hx + WithKey(t, k);
          { assert [] + WithKey(t, k) == WithKey(t, k); }
          hx + WithKey(s, k);
        }
      }
    }
  }

  lemma WithKeyCons(h: Row, t: seq<Row>, k: string)
    ensures WithKey([h] + t, k) == (if KeyIs(h, k) then [h] else []) + WithKey(t, k)
  {
    var s := [h] + t;
    assert s[0] == h && s[1..] == t;
  }

  /** Stability: for every date, the rows carrying it keep their input order. */
  lemma {:induction false} SortByDateStable(rows: seq<Row>, k: string)
    requires KeysComparable(rows)
    ensures WithKey(SortByDate(rows), k) == WithKey(rows, k)
  {
    if rows != [] {
      SortByDateStable(rows[1..], k);
      InsertWithKey(rows[0], SortByDate(rows[1..]), k);
    }
  }

  lemma WithKeyOwnKey(rows: seq<Row>)
    requires KeysComparable(rows) && rows != []
    ensures WithKey(rows, SortKey(rows[0])) != []
  {
  }

  lemma {:induction false} WithKeyMembers(rows: seq<Row>, k: string, x: Row)
    requires KeysComparable(rows)
    requires x in WithKey(rows, k)
    ensures x in rows && HasTextKey(x) && SortKey(x) == k
  {
    if rows != [] && !(x == rows[0] && SortKey(rows[0]) == k) {
      WithKeyMembers(rows[1..], k, x);
    }
  }

  /** The first row of a sorted list has the smallest key, so two sorted lists with the same rows per key start alike. */
  lemma SortedHeadsAgree(a: seq<Row>, b: seq<Row>)
    requires KeysComparable(a) && KeysComparable(b) && Sorted(a) && Sorted(b)
    requires a != [] && b != []
    requires forall k :: WithKey(a, k) == WithKey(b, k)
    ensures a[0] == b[0]
  {
    var ka, kb := SortKey(a[0]), SortKey(b[0]);
    assert WithKey(a, ka)[0] == a[0];
    assert WithKey(b, kb)[0] == b[0];
    assert a[0] in WithKey(b, ka);
    assert b[0] in WithKey(a, kb);
    WithKeyMembers(b, ka, a[0]);
    WithKeyMembers(a, kb, b[0]);
    SortedPairwise(a);
    SortedPairwise(b);
    var j :| 0 <= j < |b| && b[j] == a[0];
    var i :| 0 <= i < |a| && a[i] == b[0];
    LexLeReflexive(ka);
    LexLeReflexive(kb);
    assert LexLe(kb, ka) && LexLe(ka, kb);
    LexLeAntisymmetric(ka, kb);
    assert WithKey(b, ka)[0] == b[0];
  }

  /**
   * A sorted and stable arrangement is unique: two sorted row lists that agree,
   * date by date, on which rows carry that date and in what order are equal.
   */
  lemma {:induction false} SortedStableUnique(a: seq<Row>, b: seq<Row>)
    requires KeysComparable(a) && KeysComparable(b) && Sorted(a) && Sorted(b)
    requires forall k :: WithKey(a, k) == WithKey(b, k)
    ensures a == b
  {
    if a == [] && b != [] {
      WithKeyOwnKey(b);
    } else if a != [] && b == [] {
      WithKeyOwnKey(a);
    } else if a != [] {
      SortedHeadsAgree(a, b);
      var ta, tb := a[1..], b[1..];
      forall k ensures WithKey(ta, k) == WithKey(tb, k) {
        var h := if SortKey(a[0]) == k then [a[0]] else [];
        assert WithKey(a, k) == h + WithKey(ta, k);
        assert WithKey(b, k) == h + WithKey(tb, k);
        assert WithKey(ta, k) == WithKey(a, k)[|h|..];
        assert WithKey(tb, k) == WithKey(b, k)[|h|..];
      }
      SortedTail(a);
      SortedTail(b);
      SortedStableUnique(ta, tb);
      assert a == [a[0]] + ta && b == [b[0]] + tb;
    }
  }

  /**
   * `SortByDate` is Python's stable sort: any sorted arrangement of the rows
   * that keeps, for every date, the input order of the rows carrying it, is it.
   */
  lemma SortByDateIsStableSort(rows: seq<Row>, out: seq<Row>)
    requires KeysComparable(rows) && KeysComparable(out) && Sorted(out)
    requires forall k :: WithKey(out, k) == WithKey(rows, k)
    ensures out == SortByDate(rows)
  {
    forall k ensures WithKey(out, k) == WithKey(SortByDate(rows), k) {
      SortByDateStable(rows, k);
    }
    SortedStableUnique(out, SortByDate(rows));
  }

  /**
   * `rows_sorted` of build_prompt: the rows sorted by date when every key is a
   * string, otherwise (sorted raises) the rows in their input order.
   */
  function OrderRows(rows: seq<Row>): (r: seq<Row>)
    ensures multiset(r) == multiset(rows) && |r| == |rows|
    ensures KeysComparable(rows) ==> KeysComparable(r) && Sorted(r)
    ensures !KeysComparable(rows) ==> r == rows
  {
    if KeysComparable(rows) then SortByDate(rows) else rows
  }

  /** With at most one row the sort and the fallback agree: nothing is reordered. */
  lemma {:induction false} OrderRowsShort(rows: seq<Row>)
    requires |rows| <= 1
    ensures OrderRows(rows) == rows
  {
    if rows != [] && KeysComparable(rows) {
      assert rows[1..] == [];
    }
  }

  /** When the sort succeeds, a row with a missing date precedes every row whose date is a non-empty string. */
  lemma MissingDateFirst(rows: seq<Row>, i: int, j: int)
    requires KeysComparable(rows)
    requires 0 <= i < |OrderRows(rows)| && 0 <= j < |OrderRows(rows)|
    requires OrderRows(rows)[i].date == NoDate
    requires OrderRows(rows)[j].date.DateText? && OrderRows(rows)[j].date.text != ""
    ensures i < j
  {
    SortedPairwise(OrderRows(rows));
  }

  /**
   * The sort depends only on which rows there are when no two rows share a
   * sort key: then any permutation of the input is ordered identically.
   */
  lemma SameOrderForDistinctDates(a: seq<Row>, b: seq<Row>)
    requires KeysComparable(a) && multiset(a) == multiset(b)
    requires DistinctKeys(a)
    ensures KeysComparable(b) && OrderRows(a) == OrderRows(b)
  {
    PermutationKeysComparable(a, b);
    forall k ensures WithKey(SortByDate(a), k) == WithKey(b, k) {
      SortByDateStable(a, k);
      WithKeyPermutation(a, b, k);
      WithKeyAtMostOne(a, k);
      ShortSeqByMultiset(WithKey(a, k), WithKey(b, k));
    }
    SortByDateIsStableSort(b, SortByDate(a));
  }

  predicate DistinctKeys(rows: seq<Row>)
    requires KeysComparable(rows)
  {
    forall i, j :: 0 <= i < j < |rows| ==> SortKey(rows[i]) != SortKey(rows[j])
  }

  lemma PermutationKeysComparable(a: seq<Row>, b: seq<Row>)
    requires KeysComparable(a) && multiset(a) == multiset(b)
    ensures KeysComparable(b)
  {
    forall i | 0 <= i < |b| ensures HasTextKey(b[i]) {
      assert b[i] in multiset(a);
      var j :| 0 <= j < |a| && a[j] == b[i];
    }
  }

  lemma ShortSeqByMultiset(x: seq<Row>, y: seq<Row>)
    requires |x| <= 1 && multiset(x) == multiset(y)
    ensures x == y
  {
    assert |x| == |multiset(x)| == |multiset(y)| == |y|;
    if |x| == 1 {
      assert x[0] in multiset(y);
    }
  }

  /** Two distinct rows sharing a date keep their input order, so swapping them in the input swaps them in the output. */
  lemma PermutationCanChangeOrder()
    ensures var x, y := Row(DateText("2025-12-10"), "AmazonEC2", Cost(1.0)), Row(DateText("2025-12-10"), "AmazonS3", Cost(2.0));
            multiset([x, y]) == multiset([y, x]) && OrderRows([x, y]) != OrderRows([y, x])
  {
    var x, y := Row(DateText("2025-12-10"), "AmazonEC2", Cost(1.0)), Row(DateText("2025-12-10"), "AmazonS3", Cost(2.0));
    LexLeReflexive("2025-12-10");
    SortTwo(x, y);
    SortTwo(y, x);
  }

  /** Two rows already in key order are left as they are. */
  lemma SortTwo(x: Row, y: Row)
    requires HasTextKey(x) && HasTextKey(y) && LexLe(SortKey(x), SortKey(y))
    ensures KeysComparable([x, y]) && OrderRows([x, y]) == [x, y]
  {
    assert [x, y][1..] == [y] && [y][1..] == [];
    assert SortByDate([y]) == [y];
    assert [x] + [y] == [x, y];
  }

  lemma {:induction false} WithKeyConcat(a: seq<Row>, b: seq<Row>, k: string)
    ensures WithKey(a + b, k) == WithKey(a, k) + WithKey(b, k)
  {
    if a == [] {
      assert a + b == b;
    } else {
      var h := if KeyIs(a[0], k) then [a[0]] else [];
      assert (a + b)[0] == a[0];
      assert (a + b)[1..] == a[1..] + b;
      WithKeyConcat(a[1..], b, k);
      calc {
        WithKey(a + b, k);
        h + WithKey(a[1..] + b, k);
        h + (WithKey(a[1..], k) + WithKey(b, k));
        (h + WithKey(a[1..], k)) + WithKey(b, k);
      }
    }
  }

  lemma {:induction false} WithKeyPermutation(a: seq<Row>, b: seq<Row>, k: string)
    requires multiset(a) == multiset(b)
    ensures multiset(WithKey(a, k)) == multiset(WithKey(b, k))
    decreases |a|
  {
    if a != [] {
      var i := PermutationMember(b, a, a[0]);
      PermutationWithout(a, b, i);
      WithKeyPermutation(a[1..], b[..i] + b[i + 1..], k);
      WithKeyWithout(b, i, k);
    } else {
      assert |b| == |multiset(b)| == 0;
    }
  }

  /** Taking the row at `i` out of `b` takes exactly its own contribution out of `WithKey(b, k)`. */
  lemma WithKeyWithout(b: seq<Row>, i: int, k: string)
    requires 0 <= i < |b|
    ensures multiset(WithKey(b, k))
         == multiset(WithKey([b[i]], k)) + multiset(WithKey(b[..i] + b[i + 1..], k))
  {
    var front, mid, back := b[..i], b[i..], b[i + 1..];
    SplitAt(b, i);
    WithKeyConcat(front, mid, k);
    WithKeyConcat([b[i]], back, k);
    assert mid == [b[i]] + back;
    WithKeyConcat(front, back, k);
  }

  lemma {:induction false} WithKeyAtMostOne(rows: seq<Row>, k: string)
    requires KeysComparable(rows) && DistinctKeys(rows)
    ensures |WithKey(rows, k)| <= 1
  {
    if rows != [] {
      var tail := rows[1..];
      assert DistinctKeys(tail) by {
        forall i, j | 0 <= i < j < |tail| ensures SortKey(tail[i]) != SortKey(tail[j]) {
          assert tail[i] == rows[i + 1] && tail[j] == rows[j + 1];
        }
      }
      WithKeyAtMostOne(tail, k);
      if SortKey(rows[0]) == k && WithKey(tail, k) != [] {
        var x := WithKey(tail, k)[0];
        WithKeyMembers(tail, k, x);
        assert false;
      }
    }
  }

  /**
   * `costs` of build_prompt: the cost of every row whose `cost` is present and
   * not None, in row order. A cost of 0 is kept.
   */
  function RetainedCosts(rows: seq<Row>): (costs: seq<real>)
    ensures |costs| <= |rows|
  {
    if rows == [] then [] else CostOf(rows[0]) + RetainedCosts(rows[1..])
  }

  /** What one row contributes to the retained costs. */
  function CostOf(r: Row): seq<real> {
    match r.cost
    case Cost(c) => [c]
    case _ => []
  }

  lemma RetainedCostsSingle(r: Row)
    ensures RetainedCosts([r]) == CostOf(r)
  {
    assert [r][1..] == [];
  }

  /** Exactly the rows that carry a cost contribute one, each in its row order position. */
  lemma {:induction false} RetainedCostsExact(rows: seq<Row>, c: real)
    ensures c in RetainedCosts(rows) <==> exists i :: 0 <= i < |rows| && rows[i].cost == Cost(c)
  {
    if rows != [] {
      RetainedCostsExact(rows[1..], c);
      if exists i :: 0 <= i < |rows| && rows[i].cost == Cost(c) {
        var i :| 0 <= i < |rows| && rows[i].cost == Cost(c);
        if i > 0 {
          assert rows[1..][i - 1] == rows[i];
        }
      }
      if exists i :: 0 <= i < |rows| - 1 && rows[1..][i].cost == Cost(c) {
        var i :| 0 <= i < |rows| - 1 && rows[1..][i].cost == Cost(c);
        assert rows[i + 1] == rows[1..][i];
      }
    }
  }

  lemma {:induction false} RetainedCostsConcat(a: seq<Row>, b: seq<Row>)
    ensures RetainedCosts(a + b) == RetainedCosts(a) + RetainedCosts(b)
  {
    if a == [] {
      assert a + b == b;
    } else {
      assert (a + b)[0] == a[0];
      assert (a + b)[1..] == a[1..] + b;
      RetainedCostsConcat(a[1..], b);
      calc {
        RetainedCosts(a + b);
        CostOf(a[0]) + RetainedCosts(a[1..] + b);
        CostOf(a[0]) + (RetainedCosts(a[1..]) + RetainedCosts(b));
        (CostOf(a[0]) + RetainedCosts(a[1..])) + RetainedCosts(b);
      }
    }
  }

  /** A row without a cost, inserted anywhere, changes nothing in the retained costs. */
  lemma {:induction false} MissingCostIgnored(rows: seq<Row>, i: nat, r: Row)
    requires i <= |rows| && !r.cost.Cost?
    ensures RetainedCosts(rows[..i] + [r] + rows[i..]) == RetainedCosts(rows)
  {
    var front, back := rows[..i], rows[i..];
    CostlessRowDropped(front, r);
    RetainedCostsConcat(front + [r], back);
    RetainedCostsConcat(front, back);
    assert front + back == rows;
  }

  lemma CostlessRowDropped(front: seq<Row>, r: Row)
    requires !r.cost.Cost?
    ensures RetainedCosts(front + [r]) == RetainedCosts(front)
  {
    RetainedCostsSingle(r);
    RetainedCostsConcat(front, [r]);
    assert RetainedCosts(front) + [] == RetainedCosts(front);
  }

  /** Reordering the rows only reorders the retained costs. */
  lemma {:induction false} RetainedCostsPermutation(a: seq<Row>, b: seq<Row>)
    requires multiset(a) == multiset(b)
    ensures multiset(RetainedCosts(a)) == multiset(RetainedCosts(b))
    decreases |a|
  {
    if a != [] {
      var i := PermutationMember(b, a, a[0]);
      PermutationWithout(a, b, i);
      RetainedCostsPermutation(a[1..], b[..i] + b[i + 1..]);
      RetainedCostsWithout(b, i);
    } else {
      assert |b| == |multiset(b)| == 0;
    }
  }

  /** Taking the row at `i` out of `b` takes exactly its cost, if any, out of the retained costs. */
  lemma RetainedCostsWithout(b: seq<Row>, i: int)
    requires 0 <= i < |b|
    ensures multiset(RetainedCosts(b)) == multiset(CostOf(b[i])) + multiset(RetainedCosts(b[..i] + b[i + 1..]))
  {
    var front, mid, back := b[..i], b[i..], b[i + 1..];
    SplitAt(b, i);
    RetainedCostsConcat(front, mid);
    assert RetainedCosts(mid) == CostOf(b[i]) + RetainedCosts(back);
    RetainedCostsConcat(front, back);
  }
}

=== FILE: seqs.dfy ===
/** Facts about sequences and multisets shared by the permutation proofs. */
module SeqFacts {

  /** Taking the same element out of two permutations of each other leaves permutations. */
  lemma PermutationWithout<T>(a: seq<T>, b: seq<T>, i: int)
    requires multiset(a) == multiset(b) && a != [] && 0 <= i < |b| && b[i] == a[0]
    ensures multiset(a[1..]) == multiset(b[..i] + b[i + 1..])
  {
    assert b == b[..i] + [b[i]] + b[i + 1..];
    assert multiset(b) == multiset(b[..i]) + multiset{b[i]} + multiset(b[i + 1..]);
    assert a == [a[0]] + a[1..];
    assert multiset(a) == multiset{a[0]} + multiset(a[1..]);
    assert multiset(a[1..]) == multiset(a) - multiset{a[0]};
    assert multiset(b[..i] + b[i + 1..]) == multiset(b[..i]) + multiset(b[i + 1..]);
  }

  /** An element of a permutation of `a` is found in `a` at some index. */
  lemma PermutationMember<T>(a: seq<T>, b: seq<T>, x: T) returns (i: int)
    requires multiset(a) == multiset(b) && x in b
    ensures 0 <= i < |a| && a[i] == x
  {
    assert x in multiset(a);
    i :| 0 <= i < |a| && a[i] == x;
  }

  /** A sequence is its prefix up to `i`, then its element at `i`, then the rest. */
  lemma SplitAt<T>(b: seq<T>, i: int)
    requires 0 <= i < |b|
    ensures b[..i] + b[i..] == b
    ensures b[i..][0] == b[i] && b[i..][1..] == b[i + 1..]
  {
  }

  /** Regrouping a five-part concatenation around its middle three parts. */
  lemma Regroup<T>(a: seq<T>, b: seq<T>, c: seq<T>, d: seq<T>, e: seq<T>)
    ensures a + b + c + d + e == a + (b + c + d) + e
  {
    assert a + b + c + d == a + (b + c + d);
  }
}

=== FILE: stats.dfy ===
/**
 * The local summary statistics build_prompt adds to the report: count, total,
 * mean and population standard deviation of the retained costs. Costs are
 * exact reals; the standard deviation is kept as the non-negative root of an
 * exact square, since real arithmetic has no square root.
 */
module SummaryStats {
  import opened SeqFacts

  /** The non-negative square root of `square`. */
  datatype Root = RootOf(square: real)

  /** The four-key `summary_stats` dictionary, keys in the order count, total, mean, stdev. */
  datatype Stats = Stats(count: nat, total: real, mean: real, stdev: Root)

  /** The sum of `f` over the values, left to right. */
  function SumOf(xs: seq<real>, f: real -> real): real {
    if xs == [] then 0.0 else f(xs[0]) + SumOf(xs[1..], f)
  }

  function Identity(x: real): real {
    x
  }

  /** The squared distance from `m`, as a function of the value. */
  function SquaredDistanceFrom(m: real): real -> real {
    x => (x - m) * (x - m)
  }

  /** Python's `sum(costs)`. */
  function Sum(xs: seq<real>): real {
    SumOf(xs, Identity)
  }

  /** The sum of the squared distances of the values from `m`. */
  function SquaredDeviations(xs: seq<real>, m: real): real {
    SumOf(xs, SquaredDistanceFrom(m))
  }

  /** `statistics.mean`. */
  function Mean(xs: seq<real>): real
    requires xs != []
  {
    Sum(xs) / (|xs| as real)
  }

  /** The square of `statistics.pstdev`: squared deviations over n, not n - 1. */
  function PopulationVariance(xs: seq<real>): real
    requires xs != []
  {
    SquaredDeviations(xs, Mean(xs)) / (|xs| as real)
  }

  /**
   * `summary_stats` of build_prompt. No cost gives all zeros; a single cost
   * gives standard deviation 0, which is also its population value; more
   * costs give the population standard deviation.
   */
  function Summarize(costs: seq<real>): (st: Stats)
    ensures st.count == |costs|
    ensures costs == [] ==> st == Stats(0, 0.0, 0.0, RootOf(0.0))
    ensures |costs| == 1 ==> st.stdev == RootOf(0.0)
    ensures costs != [] ==> st.total == Sum(costs) && st.mean == st.total / (|costs| as real)
    ensures costs != [] ==> st.stdev.square == SquaredDeviations(costs, st.mean) / (|costs| as real)
    ensures st.stdev.square >= 0.0
  {
    if costs == [] then
      Stats(0, 0.0, 0.0, RootOf(0.0))
    else if |costs| == 1 then
      assert costs == [costs[0]];
      SumSingle(costs[0]);
      ConstantHasNoSpread(costs, Mean(costs));
      Stats(1, Sum(costs), Mean(costs), RootOf(0.0))
    else
      SquaredDeviationsNonNegative(costs, Mean(costs));
      Stats(|costs|, Sum(costs), Mean(costs), RootOf(PopulationVariance(costs)))
  }

  lemma {:induction false} SumOfNonNegative(xs: seq<real>, f: real -> real)
    requires forall x :: f(x) >= 0.0
    ensures SumOf(xs, f) >= 0.0
  {
    if xs != [] {
      SumOfNonNegative(xs[1..], f);
    }
  }

  lemma SquaredDeviationsNonNegative(xs: seq<real>, m: real)
    ensures SquaredDeviations(xs, m) >= 0.0
  {
    var f := SquaredDistanceFrom(m);
    forall x ensures f(x) >= 0.0 {
      SquareNonNegative(x - m);
    }
    SumOfNonNegative(xs, f);
  }

  lemma SquareNonNegative(d: real)
    ensures d * d >= 0.0
  {
  }

  lemma ZeroSquare(d: real)
    requires d == 0.0
    ensures d * d == 0.0
  {
  }

  /** The sum of a function that is never negative is zero exactly when every term is zero. */
  lemma {:induction false} SumOfZero(xs: seq<real>, f: real -> real)
    requires forall x :: f(x) >= 0.0
    ensures SumOf(xs, f) == 0.0 <==> forall i :: 0 <= i < |xs| ==> f(xs[i]) == 0.0
  {
    if xs != [] {
      var tail := xs[1..];
      SumOfZero(tail, f);
      SumOfNonNegative(tail, f);
      if SumOf(xs, f) == 0.0 {
        forall i | 0 < i < |xs| ensures f(xs[i]) == 0.0 {
          assert xs[i] == tail[i - 1];
        }
      }
      if forall i :: 0 <= i < |xs| ==> f(xs[i]) == 0.0 {
        forall i | 0 <= i < |tail| ensures f(tail[i]) == 0.0 {
          assert tail[i] == xs[i + 1];
        }
      }
    }
  }

  /** When every cost equals `m` there is no spread around `m`. */
  lemma ConstantHasNoSpread(xs: seq<real>, m: real)
    requires forall i :: 0 <= i < |xs| ==> xs[i] == m
    ensures SquaredDeviations(xs, m) == 0.0
  {
    var f := SquaredDistanceFrom(m);
    forall x ensures f(x) >= 0.0 {
      SquareNonNegative(x - m);
    }
    forall x | x == m ensures f(x) == 0.0 {
      ZeroSquare(x - m);
    }
    SumOfZero(xs, f);
  }

  lemma SumSingle(c: real)
    ensures Sum([c]) == c
  {
    assert [c][1..] == [];
    assert SumOf([c][1..], Identity) == 0.0;
  }

  lemma {:induction false} SumOfConcat(a: seq<real>, b: seq<real>, f: real -> real)
    ensures SumOf(a + b, f) == SumOf(a, f) + SumOf(b, f)
  {
    if a == [] {
      assert a + b == b;
    } else {
      assert (a + b)[0] == a[0] && (a + b)[1..] == a[1..] + b;
      SumOfConcat(a[1..], b, f);
    }
  }

  /** A sum over a sequence does not depend on the order of its values. */
  lemma {:induction false} SumOfPermutation(a: seq<real>, b: seq<real>, f: real -> real)
    requires multiset(a) == multiset(b)
    ensures SumOf(a, f) == SumOf(b, f)
    decreases |a|
  {
    if a != [] {
      var i := PermutationMember(b, a, a[0]);
      var front, mid, back := b[..i], b[i..], b[i + 1..];
      PermutationWithout(a, b, i);
      SumOfPermutation(a[1..], front + back, f);
      SumOfConcat(front, back, f);
      SumOfConcat(front, mid, f);
      SplitAt(b, i);
    } else {
      assert |b| == |multiset(b)| == 0;
    }
  }

  /** None of count, total, mean and standard deviation depends on the order of the costs. */
  lemma SummarizeIgnoresOrder(a: seq<real>, b: seq<real>)
    requires multiset(a) == multiset(b)
    ensures Summarize(a) == Summarize(b)
  {
    assert |a| == |multiset(a)| == |multiset(b)| == |b|;
    if a != [] {
      SumOfPermutation(a, b, Identity);
      SumOfPermutation(a, b, SquaredDistanceFrom(Mean(a)));
    }
  }

  /** The worked examples: no cost, one cost of 10, and the costs 10 and 20 (standard deviation 5). */
  lemma SummaryExamples()
    ensures Summarize([]) == Stats(0, 0.0, 0.0, RootOf(0.0))
    ensures Summarize([10.0]) == Stats(1, 10.0, 10.0, RootOf(0.0))
    ensures Summarize([10.0, 20.0]) == Stats(2, 30.0, 15.0, RootOf(25.0)) && 5.0 * 5.0 == 25.0
  {
    assert [10.0, 20.0][1..] == [20.0] && [20.0][1..] == [];
    assert Sum([10.0, 20.0]) == 30.0;
    assert SquaredDeviations([10.0, 20.0], 15.0) == 50.0;
  }
}

=== FILE: text.dfy ===
/**
 * The string operations the analyzer relies on: Python's `str.strip()` with no
 * argument, `str.join`, and the decimal rendering of a non-negative `int` that
 * `json.dumps` produces.
 */
module Text {

  /** Python's `str.isspace()` for a single character (the Unicode whitespace set). */
  predicate IsSpace(c: char) {
    || c == ' '
    || ('\t' <= c <= '\r')
    || ('\U{1C}' <= c <= '\U{1F}')
    || c == '\U{85}' || c == '\U{A0}' || c == '\U{1680}'
    || ('\U{2000}' <= c <= '\U{200A}')
    || c == '\U{2028}' || c == '\U{2029}' || c == '\U{202F}' || c == '\U{205F}' || c == '\U{3000}'
  }

  predicate AllSpace(s: string) {
    forall i :: 0 <= i < |s| ==> IsSpace(s[i])
  }

  /** Neither the first nor the last character is whitespace. */
  predicate NoEdgeSpace(s: string) {
    s == [] || (!IsSpace(s[0]) && !IsSpace(s[|s| - 1]))
  }

  /** Every character of `s` from index `lo` up to, not including, `hi` is whitespace. */
  predicate SpaceBetween(s: string, lo: nat, hi: nat)
    requires lo <= hi <= |s|
  {
    forall k :: lo <= k < hi ==> IsSpace(s[k])
  }

  /** Drops the leading whitespace. */
  function TrimStart(s: string): (r: string)
    ensures |r| <= |s| && r == s[|s| - |r|..]
    ensures r == [] || !IsSpace(r[0])
    ensures SpaceBetween(s, 0, |s| - |r|)
  {
    if s != [] && IsSpace(s[0]) then TrimStart(s[1..]) else s
  }

  /** Drops the trailing whitespace. */
  function TrimEnd(s: string): (r: string)
    ensures |r| <= |s| && r == s[..|r|]
    ensures r == [] || !IsSpace(r[|r| - 1])
    ensures SpaceBetween(s, |r|, |s|)
  {
    if s != [] && IsSpace(s[|s| - 1]) then TrimEnd(s[..|s| - 1]) else s
  }

  /** `r` is a slice of `s` and everything cut away on either side of it is whitespace. */
  predicate SpaceFramed(s: string, r: string) {
    exists i: nat :: i + |r| <= |s| && r == s[i..i + |r|]
                     && SpaceBetween(s, 0, i) && SpaceBetween(s, i + |r|, |s|)
  }

  /**
   * Python's `s.strip()`: the longest slice of `s` that neither starts nor ends
   * with whitespace, everything cut away on either side being whitespace.
   */
  function Strip(s: string): (r: string)
    ensures NoEdgeSpace(r)
    ensures SpaceFramed(s, r)
  {
    TrimsFrame(s);
    TrimEnd(TrimStart(s))
  }

  lemma TrimsFrame(s: string)
    ensures SpaceFramed(s, TrimEnd(TrimStart(s)))
  {
    var t := TrimStart(s);
    SliceFramed(s, t, TrimEnd(t));
  }

  /** A prefix `r` of a suffix `t` of `s`, cut off by whitespace on both sides, is framed in `s`. */
  lemma SliceFramed(s: string, t: string, r: string)
    requires |t| <= |s| && t == s[|s| - |t|..] && SpaceBetween(s, 0, |s| - |t|)
    requires |r| <= |t| && r == t[..|r|] && SpaceBetween(t, |r|, |t|)
    ensures SpaceFramed(s, r)
  {
    var i := |s| - |t|;
    assert r == s[i..i + |r|] by {
      forall k | 0 <= k < |r| ensures r[k] == s[i + k] {
        assert r[k] == t[k];
      }
    }
    forall k | i + |r| <= k < |s| ensures IsSpace(s[k]) {
      assert s[k] == t[k - i];
    }
    assert i + |r| <= |s| && r == s[i..i + |r|] && SpaceBetween(s, 0, i) && SpaceBetween(s, i + |r|, |s|);
  }

  /** Stripping a text that is already free of edge whitespace, padded by whitespace on both sides, gives back the text. */
  lemma {:induction false} StripPadded(lead: string, x: string, trail: string)
    requires AllSpace(lead) && AllSpace(trail)
    requires x != [] && NoEdgeSpace(x)
    ensures Strip(lead + x + trail) == x
  {
    assert lead + x + trail == lead + (x + trail);
    TrimStartSkips(lead, x + trail);
    TrimEndSkips(x, trail);
  }

  /** Stripping a text without whitespace at either end changes nothing. */
  lemma StripKeepsEdgeFree(x: string)
    requires x != [] && NoEdgeSpace(x)
    ensures Strip(x) == x
  {
    StripPadded([], x, []);
    assert [] + x + [] == x;
  }

  lemma {:induction false} TrimStartSkips(lead: string, rest: string)
    requires AllSpace(lead) && rest != [] && !IsSpace(rest[0])
    ensures TrimStart(lead + rest) == rest
  {
    if lead != [] {
      assert (lead + rest)[1..] == lead[1..] + rest;
      TrimStartSkips(lead[1..], rest);
    }
  }

  lemma {:induction false} TrimEndSkips(rest: string, trail: string)
    requires AllSpace(trail) && rest != [] && !IsSpace(rest[|rest| - 1])
    ensures TrimEnd(rest + trail) == rest
  {
    if trail != [] {
      assert (rest + trail)[..|rest + trail| - 1] == rest + trail[..|trail| - 1];
      TrimEndSkips(rest, trail[..|trail| - 1]);
    } else {
      assert rest + trail == rest;
    }
  }

  /** Stripping text made only of whitespace leaves nothing. */
  lemma StripAllSpace(s: string)
    requires AllSpace(s)
    ensures Strip(s) == []
  {
  }

  /** Python's `sep.join(parts)`. */
  function Join(parts: seq<string>, sep: string): string
  {
    if parts == [] then []
    else if |parts| == 1 then parts[0]
    else parts[0] + sep + Join(parts[1..], sep)
  }

  /** Joining whitespace-only parts with a whitespace separator yields whitespace only. */
  lemma {:induction false} JoinAllSpace(parts: seq<string>, sep: string)
    requires AllSpace(sep)
    requires forall i :: 0 <= i < |parts| ==> AllSpace(parts[i])
    ensures AllSpace(Join(parts, sep))
  {
    if |parts| > 1 {
      JoinAllSpace(parts[1..], sep);
      var rest := Join(parts[1..], sep);
      var j := parts[0] + sep + rest;
      forall k | 0 <= k < |j| ensures IsSpace(j[k]) {
        if k < |parts[0]| {
          assert j[k] == parts[0][k];
        } else if k < |parts[0]| + |sep| {
          assert j[k] == sep[k - |parts[0]|];
        } else {
          assert j[k] == rest[k - |parts[0]| - |sep|];
        }
      }
    }
  }

  /** The decimal digit for `d`. */
  function DigitChar(d: nat): (c: char)
    requires d < 10
    ensures '0' <= c <= '9' && (c as int) - ('0' as int) == d
  {
    ('0' as int + d) as char
  }

  predicate AllDigits(s: string) {
    forall i :: 0 <= i < |s| ==> '0' <= s[i] <= '9'
  }

  /** How `json.dumps` renders a non-negative Python `int`: its decimal digits without leading zeros. */
  function NatToDecimal(n: nat): (s: string)
    ensures s != [] && AllDigits(s)
    ensures |s| > 1 ==> s[0] != '0'
  {
    if n < 10 then [DigitChar(n)] else NatToDecimal(n / 10) + [DigitChar(n % 10)]
  }

  /** Reads a string of decimal digits back as a number. */
  function DecimalToNat(s: string): nat
    requires AllDigits(s)
  {
    if s == [] then 0
    else DecimalToNat(s[..|s| - 1]) * 10 + ((s[|s| - 1] as int) - ('0' as int))
  }

  /** The rendered count parses back to the same number. */
  lemma {:induction false} DecimalRoundTrip(n: nat)
    ensures DecimalToNat(NatToDecimal(n)) == n
  {
    if n >= 10 {
      var s := NatToDecimal(n);
      assert s[..|s| - 1] == NatToDecimal(n / 10);
      DecimalRoundTrip(n / 10);
    }
  }
}

=== FILE: wrappers.dfy ===
/** The conventional optional value. */
module Wrappers {
  datatype Option<+T> = None | Some(value: T)
}
